=== FILE: README.md ===
# delivery-hub: order lifecycle, authorization and accounts, in Dafny

This project models the decision core of the delivery-hub backend and the one
piece of its mobile client that encodes the order workflow:

- the order routes (`POST /orders/create`, `GET /orders/:id`, `GET /orders`,
  `PUT /orders/:id/status`, `PUT /orders/:id/cancel`, and the role check of
  `GET /orders/partner/earnings`), each as a decision over the requester
  `{id, role}`, the order snapshot the route looked up and the request,
  followed by the order-table operation it calls;
- the order model (`create`, `findById`, `findAll`, `updateStatus`, `cancel`)
  as operations on an abstract table: a map from order id to order plus the
  auto-increment counter that hands out ids;
- registration and login over a user table keyed by email, with bcrypt
  reduced to a salted hash function and a compare function, and the JWT
  reduced to the claims it carries;
- the order details screen's action button (`getActionButtons`) and the
  status request it sends.

Modules: `Wrappers` (Option), `Domain` (statuses and their tokens, roles,
requester, order row, JavaScript truthiness of optional strings), `Outcomes`
(the answer kinds and their HTTP codes), `OrderStore`, `OrderRoutes`,
`AuthRoutes`, `OrderDetails`.

The routes are modelled as written, not as a stricter design would have them:

- a delivery partner may set any valid status on any order, from any status,
  including moving a delivered or cancelled order back (`OrderRoutes.PartnerSetsAnyStatus`);
- the status route lets a sender cancel a pending order without checking that
  the sender owns it (`OrderRoutes.SenderCancelsWithoutOwnership`);
- the cancel route checks ownership for senders only (`OrderRoutes.CancelUngatedForOtherRoles`);
- there is no "invalid transition" error and no conflict on a lost race; the
  status route's "Update failed" answer cannot happen in this sequential
  model, because the order was found just before (`OrderRoutes.HandleUpdateStatus`);
- an amount of 0 is refused as a missing field, because the check is
  JavaScript truthiness (`OrderRoutes.ValidateCreate`);
- `limit=0` returns no rows (SQL `LIMIT 0`), rather than meaning "unlimited";
- an explicit `status` filter applies whenever `type` is neither `active` nor
  `history`, whatever other value `type` has;
- a requester whose user type is neither sender nor delivery partner is listed
  every order by the list route, but may read by id only the orders they sent;
- a sender whose id is the empty string would not be scoped by the list route
  (the model keeps the truthiness test; real ids are never empty).

Inputs the backend takes from its environment are parameters: the database
clock (`now`, filling `created_at`), the new user's id (`newId`), the bcrypt
salt, and the hash and compare functions.

## Model

| member | source | states |
|---|---|---|
| Domain.ParseStatus | backend/routes/orders.js:95-99 | a status token is accepted exactly when it is one of the five valid tokens, and then reads back to that token |
| Domain.StatusTokenRoundTrip | backend/routes/orders.js:95 | every status's token is valid, parses back to the same status, and no two statuses share a token |
| Domain.RoleOf | backend/routes/orders.js:79 | a user_type token reads as sender or delivery partner exactly for those two tokens, any other token is kept as it is, and the token can be recovered from the role |
| Domain.RoleTokenRoundTrip | backend/routes/orders.js:79 | a role's token reads back as the same role, so the known tokens have no second spelling |
| Domain.ActiveHistoryPartition | backend/models/Order.js:29-32 | the active and history status sets are disjoint and together cover every status |
| OrderStore.Create | backend/models/Order.js:4-10 | the new order gets a fresh id, is pending with no partner, carries the given sender, description, addresses, amount and creation time, and every other order is unchanged |
| OrderStore.FindById | backend/models/Order.js:13-16 | the lookup finds an order exactly when the id is in the table, and returns that row |
| OrderStore.TypeSelectsExactly | backend/models/Order.js:29-32 | `type=active` selects exactly pending, assigned, in_transit; `type=history` exactly delivered, cancelled |
| OrderStore.StatusFilterPrecedence | backend/models/Order.js:29-36 | under `type=active` or `history` the status filter is ignored; any other type value is ignored altogether |
| OrderStore.InsertNewestFirst | backend/models/Order.js:42 | inserting into a newest-first sequence keeps it newest first and adds exactly the new row |
| OrderStore.InsertKeepsIdsDistinct | backend/models/Order.js:42 | inserting a row with a new id keeps the ids of the sequence distinct |
| OrderStore.ApplyLimit | backend/models/Order.js:44-47 | the limit keeps a prefix of the ordered rows, of the limit's length when there are enough rows, and all rows without a limit |
| OrderStore.FindAll | backend/models/Order.js:18-50 | returns distinct rows of the table that match the filter, all with the filter's sender when one is given, newest first, at most `limit` of them; a matching row is missing only when the limit is reached and it is no newer than any returned row |
| OrderStore.UpdateStatus | backend/models/Order.js:53-67 | succeeds exactly when the id exists; sets the status whatever it was, sets the partner only for a truthy partner id, and changes nothing else in that order or in other orders |
| OrderStore.Cancel | backend/models/Order.js:70-73 | changes an order exactly when it exists and is pending, to cancelled, and otherwise leaves the table as it was |
| OrderStore.CancelTwiceFails | backend/models/Order.js:70-73 | cancelling the same order a second time fails and leaves the table unchanged |
| OrderRoutes.ValidateCreate | backend/routes/orders.js:14-20 | missing addresses or a missing or zero amount give "Missing required fields", a negative amount gives its own message, the description is optional; a request is accepted exactly when both addresses are given and the amount is positive, and the accepted order carries the request's fields |
| OrderRoutes.HandleCreate | backend/routes/orders.js:7-35 | a valid request from any role stores one new pending order owned by the requester, with the request's description, addresses and amount, and answers 201 with its id; an invalid one answers the validation error and leaves the table unchanged |
| OrderRoutes.AuthorizeRead | backend/routes/orders.js:45-63 | an absent order is NotFound before any check; a partner may read any order, any other role only an order whose sender is the requester, otherwise Forbidden |
| OrderRoutes.CreatorCanRead | backend/routes/orders.js:7-63 | an order just created is found by id, pending and owned by its creator, and the read check lets the creator see it, whatever their role |
| OrderRoutes.ListFilter | backend/routes/orders.js:73-81 | a sender's filter is always scoped to the sender's own id whatever the query says; other roles get no sender scope; truthy query parameters pass through |
| OrderRoutes.ListOrders | backend/routes/orders.js:71-85 | every returned row is in the table and matches the route's filter (for a sender, their own id and the status part of the query; for other roles, the status part only); at most `limit` rows, newest first, no order twice; a matching row is missing only when the limit is reached and it is no newer than every returned row, so a sender gets all their selected orders and a partner all selected orders; the total is the row count; a partner, or a sender with a non-empty id, may read every order listed to them through the get-by-id route |
| OrderRoutes.AuthorizeStatusUpdate | backend/routes/orders.js:94-119 | an invalid token is BadRequest even for a missing order; then NotFound; a sender is Forbidden unless cancelling a pending order, with no ownership check; the request passes exactly when the token is valid, the order exists and, for a sender, it is a cancel of a pending order, so every other role passes; a partner assigning without a partner id assigns themselves, otherwise the given id passes through |
| OrderRoutes.HandleUpdateStatus | backend/routes/orders.js:92-126 | a permitted update writes the requested status and answers with it; a partner assigning without a partner id becomes the order's partner, and a request without a truthy partner id otherwise keeps the old partner; a refused one leaves the table unchanged; "Update failed" never happens |
| OrderRoutes.AuthorizeCancel | backend/routes/orders.js:137-146 | an absent order is NotFound; only a sender who is not the owner is Forbidden; the gate passes exactly when the order exists and the requester is not such a sender, so an owning sender or any other role may cancel |
| OrderRoutes.HandleCancel | backend/routes/orders.js:135-153 | success exactly when the gate passes and the table's conditional cancel changed the order; a non-pending order gives "Cancellation failed"; failures leave the table unchanged |
| OrderRoutes.AuthorizeEarnings | backend/routes/orders.js:163-165 | only delivery partners pass the gate, with their own id; every other role is Forbidden. Passing the gate is not a successful answer: the call after it always fails (see Left out) |
| OrderRoutes.PartnerSetsAnyStatus | backend/routes/orders.js:107-126 | a partner's status request on an existing order succeeds for every status, from every status |
| OrderRoutes.SenderCancelsWithoutOwnership | backend/routes/orders.js:107-113 | any sender can cancel any pending order through the status route |
| OrderRoutes.CancelUngatedForOtherRoles | backend/routes/orders.js:142-153 | for a non-sender the cancel route succeeds exactly on pending orders and never answers Forbidden |
| OrderRoutes.SecondCancelFails | backend/routes/orders.js:148-153 | after a successful cancel, the same cancel answers "Cancellation failed" and changes nothing |
| AuthRoutes.UserTypeOrSender | backend/routes/auth.js:28 | a falsy user type is stored as sender, any other value as given |
| AuthRoutes.Register | backend/routes/auth.js:9-45 | missing email, password or name is BadRequest and an existing email is 409, both leaving the table unchanged; otherwise exactly one user is added with the hashed password, and the answer and token carry the stored id, email and user type |
| AuthRoutes.Login | backend/routes/auth.js:53-83 | missing credentials are BadRequest; an unknown email or a failed compare is 401 "Invalid email or password"; otherwise the stored user's id, email, name and user type are returned with matching claims; in a table filed by email, the answer and the token carry the email the client logged in with |
| AuthRoutes.UnknownEmailLooksLikeWrongPassword | backend/routes/auth.js:61-69 | an unknown email and a wrong password give the same answer, a 401 |
| AuthRoutes.SecondRegisterConflicts | backend/routes/auth.js:17-20 | registering an email a second time answers 409 and leaves the table unchanged |
| AuthRoutes.RegisterThenLogin | backend/routes/auth.js:22-83 | with a sound hasher, logging in with the registered password succeeds and returns the registered id, email, user type and claims |
| AuthRoutes.RegisteredRole | backend/routes/auth.js:28-32 | a user registered without a user type acts as a sender; otherwise under exactly the given type |
| OrderDetails.NextAction | mobile/screens/OrderDetailsScreen.js:44-57 | only a delivery partner is offered a step, and it is the next status on the chain pending, assigned, in_transit, delivered; nothing for delivered or cancelled |
| OrderDetails.NextActionMovesForward | mobile/screens/OrderDetailsScreen.js:44-57 | the offered status is never cancelled, never the current one, and never earlier on the chain |
| OrderDetails.StatusPayload | mobile/screens/OrderDetailsScreen.js:30-33 | the request carries the chosen status and always the acting user's id as partner |
| OrderDetails.PartnerStepReassigns | mobile/screens/OrderDetailsScreen.js:28-33 | pressing the offered button as a partner succeeds, advances the order one step and makes the presser its partner, whoever held it before, changing nothing else |
| OrderDetails.PartnerWalksChain | mobile/screens/OrderDetailsScreen.js:44-57 | one partner's three button presses take a pending order to delivered, assigned to that partner, after which nothing is offered |

## Left out

- SQL text, the database driver and connection handling: every statement is replaced by its effect on the abstract tables. `affectedRows` is read as "rows matched", so `updateStatus` succeeds exactly when the id exists.
- The `catch` branches answering 500 "Server error": the abstract tables raise no exceptions, so these answers are not modelled. In the backend they do fire: on database or library errors, and on every earnings request that passes the role check (see the earnings line below).
- Express routing, the request and response objects, and the server and app wiring: only the answer kind, its code and its message are kept.
- The authentication middleware is not part of this model; the requester is an input, and `AuthRoutes.RequesterOf` is the reading of the token claims the routes assume.
- bcrypt and JWT: hashing and comparing are caller-supplied functions, and the token is its claims record; signing, the secret and expiry are not modelled.
- `backend/models/User.js`: the random, time-based user id is a parameter, and its uniqueness is not checked, as the route does not check it.
- Case-insensitive string comparison in the database is not modelled: the email lookup of register and login and the `status = ?` filter of findAll are exact string equality here, so `?status=PENDING`, which the database would match against pending rows, selects nothing in `OrderStore.StatusSelected`.
- Earnings: the route calls `Order.getEarnings`, which the order model does not define. Every request that passes the role check therefore throws and is answered 500, so no delivery partner ever gets a successful answer from this route. Only the role check (`OrderRoutes.AuthorizeEarnings`) is modelled; its `Ok` means "passed the gate".
- OrderRoutes.HandleCreate: a request without `package_description` stores no description here. If the database driver refuses `undefined` bind values, as mysql2 does, the backend would instead answer 500 for it; the driver is not part of this model, so this is not modelled.
- AuthRoutes.Register: likewise, a registration without `phone` adds the user here; a driver that refuses `undefined` bind values would make the backend answer 500 instead. Not modelled, for the same reason.
- All other mobile code (screens, navigation, storage, the HTTP client, the auth context): UI and I/O.
- Amounts are whole numbers of minor units; floating-point and decimal amounts, and amounts sent as strings, are not modelled.
- Query parameters arrive already parsed: `limit` is an optional natural number, and a negative or non-numeric limit is not modelled; repeated parameters (arrays) are not modelled.
- The `:id` path parameter is an order id; the database's coercion of non-numeric id strings is not modelled.
- Concurrent requests and races between a route's lookup and its update: the model is sequential.
- OrderStore.FindAll: rows with equal creation times may come back in any order, as SQL does not fix it; the contract says nothing about their relative order.

=== FILE: auth_routes.dfy ===
/**
 Registration and login over an abstract user table keyed by email. Password
 hashing is a pair of functions supplied by the caller (bcrypt's hash with a
 salt and its compare); the signed token is reduced to the claims it carries.
 */
module AuthRoutes {
  import opened Wrappers
  import opened Domain
  import opened Outcomes

  /** bcrypt, reduced to its interface: salted hashing and comparison against a stored hash. */
  datatype PasswordHasher = PasswordHasher(hash: (string, nat) -> string, compare: (string, string) -> bool)

  /** The one fact the routes rely on: a password matches any salted hash of itself. */
  ghost predicate Sound(h: PasswordHasher) {
    forall p, salt :: h.compare(p, h.hash(p, salt))
  }

  datatype User = User(id: UserId, email: string, passwordHash: string, name: string,
                       phone: Option<string>, userType: string)

  /** The users table, looked up by email. */
  type UserTable = map<string, User>

  /** Every user is filed under their own email. */
  ghost predicate Valid(users: UserTable) {
    forall e :: e in users ==> users[e].email == e
  }

  /** The payload of the signed token (signing, secret and expiry are not modelled). */
  datatype Claims = Claims(id: UserId, email: string, userType: string)

  /**
   The identity the authentication middleware derives from a token's claims.
   The middleware is not part of this model; this is the reading the order
   routes assume (`req.user.id`, `req.user.user_type`).
   */
  function RequesterOf(c: Claims): (r: Requester)
    ensures r.id == c.id && RoleToken(r.role) == c.userType
  {
    Requester(c.id, RoleOf(c.userType))
  }

  datatype AuthResponse<+T> = AuthResponse(outcome: Outcome<T>, users: UserTable)

  // ---------------------------------------------------------------------------
  // Register

  const MissingFields := "Missing required fields"
  const EmailExists := "Email already exists"

  datatype RegisterRequest = RegisterRequest(
    email: Option<string>, password: Option<string>, name: Option<string>,
    phone: Option<string>, userType: Option<string>)

  /** The body of a 201 answer to register. */
  datatype Registered = Registered(id: UserId, email: string, name: string, phone: Option<string>,
                                   userType: string, token: Claims)

  predicate RegisterFieldsGiven(req: RegisterRequest) {
    Truthy(req.email) && Truthy(req.password) && Truthy(req.name)
  }

  /** `user_type || 'sender'`: a falsy user type becomes sender; any other value is kept as it is. */
  function UserTypeOrSender(userType: Option<string>): (t: string)
    ensures Truthy(userType) ==> t == userType.value
    ensures !Truthy(userType) ==> t == "sender"
  {
    if Truthy(userType) then userType.value else "sender"
  }

  /**
   Registration: missing fields, then an existing email, are refused and
   leave the table alone; otherwise exactly one user is added, under the
   fresh id `newId` with the password hashed under `salt`, and the answer
   and its token repeat what was stored.
   */
  function Register(users: UserTable, h: PasswordHasher, req: RegisterRequest, newId: UserId, salt: nat): (r: AuthResponse<Registered>)
    ensures r.outcome == BadRequest(MissingFields) <==> !RegisterFieldsGiven(req)
    ensures r.outcome == Conflict(EmailExists) <==> RegisterFieldsGiven(req) && req.email.value in users
    ensures r.outcome.Created? <==> RegisterFieldsGiven(req) && req.email.value !in users
    ensures !r.outcome.Created? ==> r.users == users
    ensures r.outcome.Created? ==>
      var e := req.email.value;
      && r.users.Keys == users.Keys + {e}
      && |r.users| == |users| + 1
      && (forall k :: k in users ==> r.users[k] == users[k])
      && r.users[e].id == newId && r.users[e].email == e && r.users[e].name == req.name.value
      && r.users[e].phone == req.phone && r.users[e].userType == UserTypeOrSender(req.userType)
      && r.users[e].passwordHash == h.hash(req.password.value, salt)
      && r.outcome.value.id == r.users[e].id && r.outcome.value.email == r.users[e].email
      && r.outcome.value.userType == r.users[e].userType
      && r.outcome.value.token == Claims(r.users[e].id, r.users[e].email, r.users[e].userType)
    ensures Valid(users) ==> Valid(r.users)
  {
    if !RegisterFieldsGiven(req) then
      AuthResponse(BadRequest(MissingFields), users)
    else if req.email.value in users then
      AuthResponse(Conflict(EmailExists), users)
    else
      var email := req.email.value;
      var userType := UserTypeOrSender(req.userType);
      var user := User(newId, email, h.hash(req.password.value, salt), req.name.value, req.phone, userType);
      AuthResponse(Created(Registered(newId, email, req.name.value, req.phone, userType,
                                      Claims(newId, email, userType))),
                   users[email := user])
  }

  // ---------------------------------------------------------------------------
  // Login

  const MissingCredentials := "Missing email or password"
  const InvalidCredentials := "Invalid email or password"

  datatype LoginRequest = LoginRequest(email: Option<string>, password: Option<string>)

  /** The body of a 200 answer to login. */
  datatype LoggedIn = LoggedIn(id: UserId, email: string, name: string, userType: string, token: Claims)

  /**
   Login: missing credentials are a bad request; an unknown email and a wrong
   password are answered identically; otherwise the stored user is returned
   with a token carrying their id, email and user type.
   */
  function Login(users: UserTable, h: PasswordHasher, req: LoginRequest): (r: Outcome<LoggedIn>)
    ensures r == BadRequest(MissingCredentials) <==> !Truthy(req.email) || !Truthy(req.password)
    ensures r == Unauthorized(InvalidCredentials) <==>
      && Truthy(req.email) && Truthy(req.password)
      && (req.email.value !in users || !h.compare(req.password.value, users[req.email.value].passwordHash))
    ensures r.Ok? <==>
      && Truthy(req.email) && Truthy(req.password) && req.email.value in users
      && h.compare(req.password.value, users[req.email.value].passwordHash)
    ensures r.Ok? ==>
      var u := users[req.email.value];
      r.value == LoggedIn(u.id, u.email, u.name, u.userType, Claims(u.id, u.email, u.userType))
    ensures Valid(users) && r.Ok? ==> r.value.email == req.email.value && r.value.token.email == req.email.value
  {
    if !Truthy(req.email) || !Truthy(req.password) then
      BadRequest(MissingCredentials)
    else if req.email.value !in users then
      Unauthorized(InvalidCredentials)
    else
      var u := users[req.email.value];
      if !h.compare(req.password.value, u.passwordHash) then
        Unauthorized(InvalidCredentials)
      else
        Ok(LoggedIn(u.id, u.email, u.name, u.userType, Claims(u.id, u.email, u.userType)))
  }

  // ---------------------------------------------------------------------------
  // Properties across calls

  /** An unknown email and a wrong password are indistinguishable to the client. */
  lemma UnknownEmailLooksLikeWrongPassword(users: UserTable, h: PasswordHasher, unknown: LoginRequest, wrong: LoginRequest)
    requires Truthy(unknown.email) && Truthy(unknown.password) && unknown.email.value !in users
    requires Truthy(wrong.email) && Truthy(wrong.password) && wrong.email.value in users
    requires !h.compare(wrong.password.value, users[wrong.email.value].passwordHash)
    ensures Login(users, h, unknown) == Login(users, h, wrong)
    ensures Login(users, h, unknown).StatusCode() == 401
  {
  }

  /** Registering the same email twice: the second attempt is a 409 and changes nothing. */
  lemma SecondRegisterConflicts(users: UserTable, h: PasswordHasher, req: RegisterRequest,
                                id1: UserId, salt1: nat, id2: UserId, salt2: nat)
    requires Register(users, h, req, id1, salt1).outcome.Created?
    ensures var after := Register(users, h, req, id1, salt1).users;
      && Register(after, h, req, id2, salt2).outcome.StatusCode() == 409
      && Register(after, h, req, id2, salt2).users == after
  {
  }

  /**
   Logging in with the password just registered succeeds and answers with
   the registered id, email and user type, provided the hasher is sound.
   */
  lemma RegisterThenLogin(users: UserTable, h: PasswordHasher, req: RegisterRequest, newId: UserId, salt: nat)
    requires Sound(h)
    requires Register(users, h, req, newId, salt).outcome.Created?
    ensures var reg := Register(users, h, req, newId, salt);
      var r := Login(reg.users, h, LoginRequest(req.email, req.password));
      && r.Ok?
      && r.value.id == reg.outcome.value.id == newId
      && r.value.email == reg.outcome.value.email
      && r.value.userType == reg.outcome.value.userType
      && r.value.token == reg.outcome.value.token
  {
    var reg := Register(users, h, req, newId, salt);
    var e := req.email.value;
    assert reg.users[e].passwordHash == h.hash(req.password.value, salt);
    assert h.compare(req.password.value, h.hash(req.password.value, salt));
  }

  /**
   A user registered without a user type acts as a sender on the order
   routes; one registered with any other truthy type acts under exactly that
   type.
   */
  lemma RegisteredRole(users: UserTable, h: PasswordHasher, req: RegisterRequest, newId: UserId, salt: nat)
    requires Register(users, h, req, newId, salt).outcome.Created?
    ensures var c := Register(users, h, req, newId, salt).outcome.value.token;
      && RequesterOf(c).id == newId
      && (!Truthy(req.userType) ==> RequesterOf(c).role == Sender)
      && (Truthy(req.userType) ==> RoleToken(RequesterOf(c).role) == req.userType.value)
  {
  }
}

=== FILE: domain.dfy ===
/**
 The entities shared by the backend routes, the order table and the mobile
 screen: order statuses with their wire tokens, user roles, the requester
 identity handed over by the authentication middleware, and the order row.
 */
module Domain {
  import opened Wrappers

  type UserId = string
  type OrderId = nat

  /** The five persisted order statuses. */
  datatype Status = Pending | Assigned | InTransit | Delivered | Cancelled

  /** The lowercase token a status is stored and transmitted as. */
  function StatusToken(s: Status): string {
    match s
    case Pending => "pending"
    case Assigned => "assigned"
    case InTransit => "in_transit"
    case Delivered => "delivered"
    case Cancelled => "cancelled"
  }

  /** The accepted status tokens (the `validStatuses` list of the status route). */
  const ValidStatusTokens: set<string> :=
    {"pending", "assigned", "in_transit", "delivered", "cancelled"}

  /** Reads a status token; anything outside the five tokens is rejected. */
  function ParseStatus(t: string): (r: Option<Status>)
    ensures r.Some? <==> t in ValidStatusTokens
    ensures r.Some? ==> StatusToken(r.value) == t
  {
    if t == "pending" then Some(Pending)
    else if t == "assigned" then Some(Assigned)
    else if t == "in_transit" then Some(InTransit)
    else if t == "delivered" then Some(Delivered)
    else if t == "cancelled" then Some(Cancelled)
    else None
  }

  /** Every status survives the trip to its token and back, and no two statuses share a token. */
  lemma StatusTokenRoundTrip(s: Status)
    ensures ParseStatus(StatusToken(s)) == Some(s)
    ensures StatusToken(s) in ValidStatusTokens
    ensures forall s' :: StatusToken(s') == StatusToken(s) ==> s' == s
  {
  }

  /** Statuses selected by `type=active`. */
  const ActiveStatuses: set<Status> := {Pending, Assigned, InTransit}
  /** Statuses selected by `type=history`. */
  const HistoryStatuses: set<Status> := {Delivered, Cancelled}

  /** Active and history statuses partition the five valid statuses. */
  lemma ActiveHistoryPartition(s: Status)
    ensures s in ActiveStatuses <==> s !in HistoryStatuses
  {
  }

  /** The forward lifecycle pending → assigned → in_transit → delivered; cancelled is off it. */
  const ForwardChain: seq<Status> := [Pending, Assigned, InTransit, Delivered]

  /** The position of a status along the forward chain, if it is on it. */
  function ChainIndex(s: Status): (r: Option<nat>)
    ensures r.Some? <==> s in ForwardChain
    ensures r.Some? ==> r.value < |ForwardChain| && ForwardChain[r.value] == s
  {
    match s
    case Pending => Some(0)
    case Assigned => Some(1)
    case InTransit => Some(2)
    case Delivered => Some(3)
    case Cancelled => None
  }

  /**
   The value of a user_type token. Registration stores the token without
   validation, so anything other than the two known roles is kept as it is.
   */
  datatype RoleValue = Sender | DeliveryPartner | OtherRole(userType: string)

  /** A role as a token reads: the two known tokens never appear as `OtherRole`. */
  type Role = r: RoleValue | !r.OtherRole? || (r.userType != "sender" && r.userType != "delivery_partner")
    witness Sender

  /** Reading a user_type token as a role: the two known tokens, and any other token kept as it is. */
  function RoleOf(userType: string): (r: Role)
    ensures RoleToken(r) == userType
    ensures r == Sender <==> userType == "sender"
    ensures r == DeliveryPartner <==> userType == "delivery_partner"
    ensures r.OtherRole? ==> r.userType == userType
  {
    if userType == "sender" then Sender
    else if userType == "delivery_partner" then DeliveryPartner
    else OtherRole(userType)
  }

  /** The user_type token of a role. */
  function RoleToken(r: Role): string {
    match r
    case Sender => "sender"
    case DeliveryPartner => "delivery_partner"
    case OtherRole(t) => t
  }

  /** A role and its token determine each other: reading the token back gives the same role. */
  lemma RoleTokenRoundTrip(r: Role)
    ensures RoleOf(RoleToken(r)) == r
  {
  }

  /** The identity the authentication middleware attaches to a request. */
  datatype Requester = Requester(id: UserId, role: Role)

  /**
   JavaScript truthiness of an optional string field: `undefined`, `null`
   and the empty string are falsy.
   */
  predicate Truthy(o: Option<string>) {
    o.Some? && o.value != ""
  }

  /** A row of the orders table. Amounts are whole minor units (cents). */
  datatype Order = Order(
    id: OrderId,
    senderId: UserId,
    deliveryPartnerId: Option<UserId>,
    packageDescription: Option<string>,
    pickupAddress: string,
    deliveryAddress: string,
    amount: int,
    status: Status,
    createdAt: int)
}

=== FILE: order_details.dfy ===
/**
 The order details screen of the mobile client: which next step it offers a
 user for an order, and the status request it sends for that step. Combined
 with the status route and the order table, this is the whole partner
 workflow of the application.
 */
module OrderDetails {
  import opened Wrappers
  import opened Domain
  import opened Outcomes
  import OrderStore
  import OrderRoutes

  /**
   The status the screen's single action button moves the order to: only a
   delivery partner is offered one, and it is the next status along the
   forward chain; nothing is offered once the order is delivered or
   cancelled.
   */
  function NextAction(userType: string, current: Status): (r: Option<Status>)
    ensures userType != "delivery_partner" ==> r == None
    ensures userType == "delivery_partner" ==> (r.None? <==> current == Delivered || current == Cancelled)
    ensures r.Some? ==>
      && ChainIndex(current).Some? && ChainIndex(r.value).Some?
      && ChainIndex(r.value).value == ChainIndex(current).value + 1
  {
    if userType == "delivery_partner" then
      match current
      case Pending => Some(Assigned)
      case Assigned => Some(InTransit)
      case InTransit => Some(Delivered)
      case _ => None
    else None
  }

  /** The offered step is never a cancellation and never goes back along the chain. */
  lemma NextActionMovesForward(userType: string, current: Status)
    requires NextAction(userType, current).Some?
    ensures NextAction(userType, current).value != Cancelled
    ensures NextAction(userType, current).value != current
    ensures forall i, j :: 0 <= i < j < |ForwardChain| && ForwardChain[j] == current ==>
      ForwardChain[i] != NextAction(userType, current).value
  {
    var next := NextAction(userType, current).value;
    forall i, j | 0 <= i < j < |ForwardChain| && ForwardChain[j] == current
      ensures ForwardChain[i] != next
    {
      assert ChainIndex(current) == Some(j);
    }
  }

  /** The body the screen sends: the new status, and the acting user as partner, always. */
  function StatusPayload(userId: UserId, next: Status): (req: OrderRoutes.StatusRequest)
    ensures ParseStatus(req.status) == Some(next)
    ensures req.partnerId == Some(userId)
  {
    StatusTokenRoundTrip(next);
    OrderRoutes.StatusRequest(StatusToken(next), Some(userId))
  }

  /**
   Pressing the offered button as a delivery partner always succeeds, moves
   the order one step along the chain, and makes the presser the order's
   partner, whoever held it before. Nothing else in the table changes.
   */
  lemma PartnerStepReassigns(t: OrderStore.Table, partnerId: UserId, id: OrderId)
    requires partnerId != "" && id in t.rows
    requires NextAction("delivery_partner", t.rows[id].status).Some?
    ensures var next := NextAction("delivery_partner", t.rows[id].status).value;
      var r := OrderRoutes.HandleUpdateStatus(t, Requester(partnerId, DeliveryPartner), id, StatusPayload(partnerId, next));
      && r.outcome == Ok(OrderRoutes.StatusUpdated(id, next))
      && r.table.rows.Keys == t.rows.Keys
      && r.table.rows[id].status == next
      && r.table.rows[id].deliveryPartnerId == Some(partnerId)
      && OrderStore.SameOrderDetails(r.table.rows[id], t.rows[id])
      && (forall k :: k in t.rows && k != id ==> r.table.rows[k] == t.rows[k])
  {
    var next := NextAction("delivery_partner", t.rows[id].status).value;
    var req := StatusPayload(partnerId, next);
    var a := OrderRoutes.AuthorizeStatusUpdate(Requester(partnerId, DeliveryPartner), OrderStore.FindById(t, id), req);
    assert a.Ok? && a.value == OrderRoutes.StatusCommand(next, Some(partnerId));
  }

  /**
   One partner walks a pending order through the whole chain with the three
   buttons the screen offers; the order ends delivered, assigned to that
   partner, and the screen then offers nothing more.
   */
  lemma PartnerWalksChain(t: OrderStore.Table, partnerId: UserId, id: OrderId)
    requires partnerId != "" && id in t.rows && t.rows[id].status == Pending
    ensures var t1 := OrderRoutes.HandleUpdateStatus(t, Requester(partnerId, DeliveryPartner), id, StatusPayload(partnerId, Assigned)).table;
      var t2 := OrderRoutes.HandleUpdateStatus(t1, Requester(partnerId, DeliveryPartner), id, StatusPayload(partnerId, InTransit)).table;
      var t3 := OrderRoutes.HandleUpdateStatus(t2, Requester(partnerId, DeliveryPartner), id, StatusPayload(partnerId, Delivered)).table;
      && id in t3.rows
      && t3.rows[id].status == Delivered
      && t3.rows[id].deliveryPartnerId == Some(partnerId)
      && OrderStore.SameOrderDetails(t3.rows[id], t.rows[id])
      && NextAction("delivery_partner", t3.rows[id].status) == None
  {
    var p := Requester(partnerId, DeliveryPartner);
    PartnerStepReassigns(t, partnerId, id);
    var t1 := OrderRoutes.HandleUpdateStatus(t, p, id, StatusPayload(partnerId, Assigned)).table;
    PartnerStepReassigns(t1, partnerId, id);
    var t2 := OrderRoutes.HandleUpdateStatus(t1, p, id, StatusPayload(partnerId, InTransit)).table;
    PartnerStepReassigns(t2, partnerId, id);
  }
}

=== FILE: order_routes.dfy ===
/**
 The decision logic of the order routes: create, get by id, list, status
 update, cancel and the earnings role check. Each route is a decision over
 the requester, the order snapshot the route looked up and the request,
 followed (where the route writes) by the matching operation of the order
 table. The routes enforce exactly the checks below and no others: in
 particular a delivery partner may set any valid status from any status.
 */
module OrderRoutes {
  import opened Wrappers
  import opened Domain
  import opened Outcomes
  import OrderStore

  /** A handler's answer together with the order table after it. */
  datatype Response<+T> = Response(outcome: Outcome<T>, table: OrderStore.Table)

  const OrderNotFound := "Order not found"
  const AccessDenied := "Access denied"

  // ---------------------------------------------------------------------------
  // Create order

  const MissingFields := "Missing required fields"
  const NegativeAmount := "Amount cannot be negative"

  datatype CreateRequest = CreateRequest(
    packageDescription: Option<string>,
    pickupAddress: Option<string>,
    deliveryAddress: Option<string>,
    amount: Option<int>)

  /** A request that passed validation. */
  datatype NewOrder = NewOrder(description: Option<string>, pickup: string, delivery: string, amount: int)

  /** The body of a 201 answer to create. */
  datatype CreatedOrder = CreatedOrder(id: OrderId, senderId: UserId, status: Status)

  /** JavaScript truthiness of the amount: absent and zero are both falsy. */
  predicate AmountGiven(a: Option<int>) {
    a.Some? && a.value != 0
  }

  /**
   Validation of a create request. Missing addresses or a missing (or zero)
   amount come first; a negative amount has its own message; the package
   description is optional.
   */
  function ValidateCreate(req: CreateRequest): (r: Outcome<NewOrder>)
    ensures r.Ok? || r.BadRequest?
    ensures r == BadRequest(MissingFields) <==>
      !Truthy(req.pickupAddress) || !Truthy(req.deliveryAddress) || !AmountGiven(req.amount)
    ensures r == BadRequest(NegativeAmount) <==>
      Truthy(req.pickupAddress) && Truthy(req.deliveryAddress) && AmountGiven(req.amount) && req.amount.value < 0
    ensures r.Ok? <==>
      Truthy(req.pickupAddress) && Truthy(req.deliveryAddress) && req.amount.Some? && req.amount.value > 0
    ensures r.Ok? ==>
      && r.value.amount > 0
      && Some(r.value.pickup) == req.pickupAddress && Some(r.value.delivery) == req.deliveryAddress
      && Some(r.value.amount) == req.amount && r.value.description == req.packageDescription
  {
    if !Truthy(req.pickupAddress) || !Truthy(req.deliveryAddress) || !AmountGiven(req.amount) then
      BadRequest(MissingFields)
    else if req.amount.value < 0 then
      BadRequest(NegativeAmount)
    else
      Ok(NewOrder(req.packageDescription, req.pickupAddress.value, req.deliveryAddress.value, req.amount.value))
  }

  /**
   The create route: any authenticated requester may create an order; it is
   stored as pending and owned by the requester.
   */
  function HandleCreate(t: OrderStore.Table, requester: Requester, req: CreateRequest, now: int): (r: Response<CreatedOrder>)
    ensures r.outcome.Created? <==> ValidateCreate(req).Ok?
    ensures !r.outcome.Created? ==> r.outcome == ValidateCreate(req).Propagate() && r.table == t
    ensures r.outcome.Created? ==>
      var id := r.outcome.value.id;
      && r.outcome.value.senderId == requester.id && r.outcome.value.status == Pending
      && (OrderStore.Valid(t) ==> id !in t.rows && OrderStore.Valid(r.table))
      && id in r.table.rows
      && r.table.rows[id].status == Pending && r.table.rows[id].senderId == requester.id
      && r.table.rows[id].deliveryPartnerId == None
      && Some(r.table.rows[id].amount) == req.amount
      && Some(r.table.rows[id].pickupAddress) == req.pickupAddress
      && Some(r.table.rows[id].deliveryAddress) == req.deliveryAddress
      && r.table.rows[id].packageDescription == req.packageDescription
      && r.table.rows[id].createdAt == now
      && r.table.rows.Keys == t.rows.Keys + {id}
      && (forall k :: k in t.rows && k != id ==> r.table.rows[k] == t.rows[k])
  {
    var v := ValidateCreate(req);
    if v.Ok? then
      var n := v.value;
      var ins := OrderStore.Create(t, requester.id, n.description, n.pickup, n.delivery, n.amount, now);
      Response(Created(CreatedOrder(ins.id, requester.id, Pending)), ins.table)
    else
      Response(v.Propagate(), t)
  }

  // ---------------------------------------------------------------------------
  // Get order by id

  /**
   Read authorization: an absent order is NotFound before anything else; a
   delivery partner may read any order; anyone else only their own.
   */
  function AuthorizeRead(requester: Requester, current: Option<Order>): (r: Outcome<Order>)
    ensures r == NotFound(OrderNotFound) <==> current.None?
    ensures current.Some? ==>
      (r.Ok? <==> requester.role == DeliveryPartner || requester.id == current.value.senderId)
    ensures current.Some? && !r.Ok? ==> r == Forbidden(AccessDenied)
    ensures r.Ok? ==> r.value == current.value
  {
    match current
    case None => NotFound(OrderNotFound)
    case Some(o) =>
      if requester.role == DeliveryPartner then Ok(o)
      else if requester.id != o.senderId then Forbidden(AccessDenied)
      else Ok(o)
  }

  /**
   An order just created can be read back by whoever created it, whatever
   their role: the lookup finds it, pending, and the read check lets them see it.
   */
  lemma CreatorCanRead(t: OrderStore.Table, requester: Requester, req: CreateRequest, now: int)
    requires OrderStore.Valid(t)
    requires HandleCreate(t, requester, req, now).outcome.Created?
    ensures var r := HandleCreate(t, requester, req, now);
      var found := OrderStore.FindById(r.table, r.outcome.value.id);
      && found.Some? && found.value.status == Pending && found.value.senderId == requester.id
      && AuthorizeRead(requester, found) == Ok(found.value)
  {
  }

  // ---------------------------------------------------------------------------
  // List orders

  /** The query parameters of the list route; `limit` is already a number. */
  datatype ListQuery = ListQuery(status: Option<string>, limit: Option<nat>, kind: Option<string>)

  datatype OrderList = OrderList(orders: seq<Order>, total: nat)

  /**
   The filter the list route hands to findAll: the truthy query parameters,
   and for a sender a scope on their own id, whatever the query says.
   */
  function ListFilter(requester: Requester, q: ListQuery): (f: OrderStore.Filter)
    ensures requester.role == Sender ==> f.senderId == Some(requester.id)
    ensures requester.role != Sender ==> f.senderId == None
    ensures f.limit == q.limit
    ensures Truthy(f.kind) <==> Truthy(q.kind)
    ensures Truthy(f.kind) ==> f.kind == q.kind
    ensures Truthy(f.status) <==> Truthy(q.status)
    ensures Truthy(f.status) ==> f.status == q.status
  {
    OrderStore.Filter(
      if requester.role == Sender then Some(requester.id) else None,
      if Truthy(q.kind) then q.kind else None,
      if Truthy(q.status) then q.status else None,
      q.limit)
  }

  /**
   The list route. A sender sees exactly their own orders that the status
   part of the query selects; a delivery partner (or any other role) sees
   every order it selects. Either way the rows come newest first, at most
   `limit` of them, and a selected row is left out only when the limit is
   reached and it is no newer than any row returned.
   */
  method ListOrders(t: OrderStore.Table, requester: Requester, q: ListQuery) returns (r: OrderList)
    requires OrderStore.Valid(t)
    ensures r.total == |r.orders|
    ensures OrderStore.NewestFirst(r.orders) && OrderStore.DistinctIds(r.orders)
    ensures forall i :: 0 <= i < |r.orders| ==>
      r.orders[i].id in t.rows && t.rows[r.orders[i].id] == r.orders[i]
    ensures requester.role == Sender && requester.id != "" ==>
      forall i :: 0 <= i < |r.orders| ==> r.orders[i].senderId == requester.id
    ensures forall i :: 0 <= i < |r.orders| ==> OrderStore.Matches(ListFilter(requester, q), r.orders[i])
    ensures q.limit.Some? ==> |r.orders| <= q.limit.value
    ensures forall k :: k in t.rows && OrderStore.Matches(ListFilter(requester, q), t.rows[k]) && t.rows[k] !in r.orders ==>
      && q.limit.Some? && |r.orders| == q.limit.value
      && forall i :: 0 <= i < |r.orders| ==> t.rows[k].createdAt <= r.orders[i].createdAt
    ensures requester.role == Sender ==>
      forall k ::
        (k in t.rows && t.rows[k].senderId == requester.id
         && OrderStore.StatusSelected(ListFilter(requester, q), t.rows[k].status) && t.rows[k] !in r.orders)
        ==> q.limit.Some? && |r.orders| == q.limit.value
    ensures requester.role != Sender ==>
      forall k :: k in t.rows && OrderStore.StatusSelected(ListFilter(requester, q), t.rows[k].status) && t.rows[k] !in r.orders ==>
        q.limit.Some? && |r.orders| == q.limit.value
    ensures requester.role == DeliveryPartner || (requester.role == Sender && requester.id != "") ==>
      forall i :: 0 <= i < |r.orders| ==>
        AuthorizeRead(requester, OrderStore.FindById(t, r.orders[i].id)) == Ok(r.orders[i])
  {
    var f := ListFilter(requester, q);
    var rows := OrderStore.FindAll(t, f);
    r := OrderList(rows, |rows|);
  }

  // ---------------------------------------------------------------------------
  // Update order status

  const InvalidStatus := "Invalid status"
  const SenderCancelOnly := "Senders can only cancel pending orders"
  const UpdateFailedMessage := "Update failed"

  /** The body of a status update: the status token and an optional partner id. */
  datatype StatusRequest = StatusRequest(status: string, partnerId: Option<UserId>)

  /** What the status route asks the table to write. */
  datatype StatusCommand = StatusCommand(status: Status, partnerId: Option<UserId>)

  /** The body of a successful status update. */
  datatype StatusUpdated = StatusUpdated(id: OrderId, status: Status)

  /** A partner asking for `assigned` without naming a partner assigns themselves. */
  predicate SelfAssigns(requester: Requester, req: StatusRequest) {
    req.status == "assigned" && !Truthy(req.partnerId) && requester.role == DeliveryPartner
  }

  /**
   The status-update gate. The token is checked before the order is looked
   up; a sender may only turn a pending order into cancelled, and is not
   checked for ownership; every other role passes unconditionally.
   */
  function AuthorizeStatusUpdate(requester: Requester, current: Option<Order>, req: StatusRequest): (r: Outcome<StatusCommand>)
    ensures r.Ok? || r.BadRequest? || r.NotFound? || r.Forbidden?
    ensures r == BadRequest(InvalidStatus) <==> req.status !in ValidStatusTokens
    ensures r == NotFound(OrderNotFound) <==> req.status in ValidStatusTokens && current.None?
    ensures r == Forbidden(SenderCancelOnly) <==>
      && req.status in ValidStatusTokens && current.Some? && requester.role == Sender
      && !(req.status == "cancelled" && current.value.status == Pending)
    ensures r.Ok? <==>
      (&& req.status in ValidStatusTokens && current.Some?
       && (requester.role == Sender ==> req.status == "cancelled" && current.value.status == Pending))
    ensures r.Ok? ==> StatusToken(r.value.status) == req.status
    ensures r.Ok? && SelfAssigns(requester, req) ==> r.value.partnerId == Some(requester.id)
    ensures r.Ok? && !SelfAssigns(requester, req) ==> r.value.partnerId == req.partnerId
  {
    match ParseStatus(req.status)
    case None => BadRequest(InvalidStatus)
    case Some(status) =>
      match current
      case None => NotFound(OrderNotFound)
      case Some(o) =>
        if requester.role == Sender && !(status == Cancelled && o.status == Pending) then
          Forbidden(SenderCancelOnly)
        else
          var partnerId := if SelfAssigns(requester, req) then Some(requester.id) else req.partnerId;
          Ok(StatusCommand(status, partnerId))
  }

  /**
   The status route: the gate above, then the table's unconditional status
   update. Because the order was just found, the update never fails.
   */
  function HandleUpdateStatus(t: OrderStore.Table, requester: Requester, id: OrderId, req: StatusRequest): (r: Response<StatusUpdated>)
    ensures !r.outcome.UpdateFailed?
    ensures r.outcome.Ok? <==> AuthorizeStatusUpdate(requester, OrderStore.FindById(t, id), req).Ok?
    ensures !r.outcome.Ok? ==>
      r.table == t && r.outcome == AuthorizeStatusUpdate(requester, OrderStore.FindById(t, id), req).Propagate()
    ensures r.outcome.Ok? ==>
      var cmd := AuthorizeStatusUpdate(requester, OrderStore.FindById(t, id), req).value;
      && r.outcome.value == StatusUpdated(id, cmd.status)
      && r.table == OrderStore.UpdateStatus(t, id, cmd.status, cmd.partnerId).table
      && id in r.table.rows && StatusToken(r.table.rows[id].status) == req.status
    ensures r.outcome.Ok? && SelfAssigns(requester, req) && requester.id != "" ==>
      r.table.rows[id].deliveryPartnerId == Some(requester.id)
    ensures r.outcome.Ok? && !SelfAssigns(requester, req) && !Truthy(req.partnerId) ==>
      r.table.rows[id].deliveryPartnerId == t.rows[id].deliveryPartnerId
    ensures OrderStore.Valid(t) ==> OrderStore.Valid(r.table)
  {
    var a := AuthorizeStatusUpdate(requester, OrderStore.FindById(t, id), req);
    if a.Ok? then
      var u := OrderStore.UpdateStatus(t, id, a.value.status, a.value.partnerId);
      if u.changed then Response(Ok(StatusUpdated(id, a.value.status)), u.table)
      else Response(UpdateFailed(UpdateFailedMessage), t)
    else
      Response(a.Propagate(), t)
  }

  // ---------------------------------------------------------------------------
  // Cancel order

  const CancellationFailed := "Cancellation failed. Order might not be pending."

  /** The body of a successful cancellation. */
  datatype CancelledOrder = CancelledOrder(id: OrderId, status: Status)

  /** The cancel gate: only a sender is checked, and only for ownership. */
  function AuthorizeCancel(requester: Requester, current: Option<Order>): (r: Outcome<Order>)
    ensures r == NotFound(OrderNotFound) <==> current.None?
    ensures r == Forbidden(AccessDenied) <==>
      current.Some? && requester.role == Sender && requester.id != current.value.senderId
    ensures r.Ok? || r.NotFound? || r.Forbidden?
    ensures r.Ok? <==> current.Some? && !(requester.role == Sender && requester.id != current.value.senderId)
    ensures r.Ok? ==> r.value == current.value
  {
    match current
    case None => NotFound(OrderNotFound)
    case Some(o) =>
      if requester.role == Sender && requester.id != o.senderId then Forbidden(AccessDenied)
      else Ok(o)
  }

  /**
   The cancel route: the gate above, then the table's conditional cancel.
   It reports success exactly when that cancel changed the order.
   */
  function HandleCancel(t: OrderStore.Table, requester: Requester, id: OrderId): (r: Response<CancelledOrder>)
    ensures r.outcome.NotFound? <==> id !in t.rows
    ensures r.outcome.Forbidden? <==>
      id in t.rows && requester.role == Sender && requester.id != t.rows[id].senderId
    ensures r.outcome.Ok? <==>
      AuthorizeCancel(requester, OrderStore.FindById(t, id)).Ok? && OrderStore.Cancel(t, id).changed
    ensures r.outcome.Ok? ==>
      && r.outcome.value == CancelledOrder(id, Cancelled)
      && r.table == OrderStore.Cancel(t, id).table
      && r.table.rows[id].status == Cancelled
    ensures r.outcome.UpdateFailed? <==>
      id in t.rows && !r.outcome.Forbidden? && t.rows[id].status != Pending
    ensures !r.outcome.Ok? ==> r.table == t
    ensures OrderStore.Valid(t) ==> OrderStore.Valid(r.table)
  {
    var a := AuthorizeCancel(requester, OrderStore.FindById(t, id));
    if a.Ok? then
      var c := OrderStore.Cancel(t, id);
      if c.changed then Response(Ok(CancelledOrder(id, Cancelled)), c.table)
      else Response(UpdateFailed(CancellationFailed), t)
    else
      Response(a.Propagate(), t)
  }

  // ---------------------------------------------------------------------------
  // Earnings

  /**
   The earnings route's only decision: delivery partners are let through
   (with their own id as the partner whose earnings are asked for); every
   other role is refused.
   */
  function AuthorizeEarnings(requester: Requester): (r: Outcome<UserId>)
    ensures r.Ok? <==> requester.role == DeliveryPartner
    ensures r.Ok? ==> r.value == requester.id
    ensures !r.Ok? ==> r == Forbidden(AccessDenied)
  {
    if requester.role != DeliveryPartner then Forbidden(AccessDenied) else Ok(requester.id)
  }

  // ---------------------------------------------------------------------------
  // Paths the routes leave open

  /**
   A delivery partner can set any valid status on any existing order:
   backwards, out of delivered or cancelled, and whoever the assigned partner
   is.
   */
  lemma PartnerSetsAnyStatus(t: OrderStore.Table, requester: Requester, id: OrderId, s: Status, partnerId: Option<UserId>)
    requires requester.role == DeliveryPartner && id in t.rows
    ensures var r := HandleUpdateStatus(t, requester, id, StatusRequest(StatusToken(s), partnerId));
      && r.outcome == Ok(StatusUpdated(id, s))
      && r.table.rows[id].status == s
  {
    StatusTokenRoundTrip(s);
  }

  /** The status route lets a sender cancel any pending order, their own or not. */
  lemma SenderCancelsWithoutOwnership(t: OrderStore.Table, requester: Requester, id: OrderId, partnerId: Option<UserId>)
    requires requester.role == Sender && id in t.rows && t.rows[id].status == Pending
    ensures var r := HandleUpdateStatus(t, requester, id, StatusRequest("cancelled", partnerId));
      && r.outcome == Ok(StatusUpdated(id, Cancelled))
      && r.table.rows[id].status == Cancelled
  {
  }

  /** The cancel route checks senders only: any other role cancels any pending order. */
  lemma CancelUngatedForOtherRoles(t: OrderStore.Table, requester: Requester, id: OrderId)
    requires requester.role != Sender && id in t.rows
    ensures HandleCancel(t, requester, id).outcome.Ok? <==> t.rows[id].status == Pending
    ensures !HandleCancel(t, requester, id).outcome.Forbidden?
  {
  }

  /** Cancelling through the cancel route twice: the second attempt is refused and changes nothing. */
  lemma SecondCancelFails(t: OrderStore.Table, requester: Requester, id: OrderId)
    requires HandleCancel(t, requester, id).outcome.Ok?
    ensures var t1 := HandleCancel(t, requester, id).table;
      && HandleCancel(t1, requester, id).outcome == UpdateFailed(CancellationFailed)
      && HandleCancel(t1, requester, id).table == t1
  {
  }
}

=== FILE: order_store.dfy ===
/**
 The orders table as an abstract store: a map from order id to row plus the
 auto-increment counter that hands out new ids. Each operation of the order
 model (create, findById, findAll, updateStatus, cancel) is given the meaning
 of its SQL statement.
 */
module OrderStore {
  import opened Wrappers
  import opened Domain

  datatype Table = Table(rows: map<OrderId, Order>, nextId: OrderId)

  /** Every row sits under its own id, and the counter is past every id in use. */
  ghost predicate Valid(t: Table) {
    forall k :: k in t.rows ==> t.rows[k].id == k && k < t.nextId
  }

  /** The empty table the application starts from. */
  function Empty(): (t: Table)
    ensures Valid(t) && t.rows == map[]
  {
    Table(map[], 1)
  }

  datatype Inserted = Inserted(id: OrderId, table: Table)

  /** The outcome of a conditional UPDATE: whether a row was changed, and the table after it. */
  datatype Change = Change(changed: bool, table: Table)

  /**
   Inserts a new order in status pending, with no partner, under the next
   auto-increment id; `now` is the database clock filling created_at.
   */
  function Create(t: Table, senderId: UserId, description: Option<string>,
                  pickup: string, delivery: string, amount: int, now: int): (r: Inserted)
    ensures Valid(t) ==> r.id !in t.rows && Valid(r.table)
    ensures r.table.rows.Keys == t.rows.Keys + {r.id}
    ensures forall k :: k in t.rows && k != r.id ==> r.table.rows[k] == t.rows[k]
    ensures var o := r.table.rows[r.id];
      && o.id == r.id && o.status == Pending && o.deliveryPartnerId == None
      && o.senderId == senderId && o.packageDescription == description
      && o.pickupAddress == pickup && o.deliveryAddress == delivery
      && o.amount == amount && o.createdAt == now
  {
    var id := t.nextId;
    var o := Order(id, senderId, None, description, pickup, delivery, amount, Pending, now);
    Inserted(id, Table(t.rows[id := o], t.nextId + 1))
  }

  function FindById(t: Table, id: OrderId): (r: Option<Order>)
    ensures r.Some? <==> id in t.rows
    ensures r.Some? ==> r.value == t.rows[id]
  {
    if id in t.rows then Some(t.rows[id]) else None
  }

  /** `a` and `b` are the same order except, possibly, for its status and assigned partner. */
  predicate SameOrderDetails(a: Order, b: Order) {
    && a.id == b.id && a.senderId == b.senderId
    && a.packageDescription == b.packageDescription
    && a.pickupAddress == b.pickupAddress && a.deliveryAddress == b.deliveryAddress
    && a.amount == b.amount && a.createdAt == b.createdAt
  }

  /**
   Sets the status of order `id` whatever its current status is, and its
   delivery partner only when a (truthy) partner id is supplied.
   */
  function UpdateStatus(t: Table, id: OrderId, status: Status, partnerId: Option<UserId>): (r: Change)
    ensures r.changed <==> id in t.rows
    ensures !r.changed ==> r.table == t
    ensures r.table.nextId == t.nextId && r.table.rows.Keys == t.rows.Keys
    ensures forall k :: k in t.rows && k != id ==> r.table.rows[k] == t.rows[k]
    ensures r.changed ==>
      && r.table.rows[id].status == status
      && SameOrderDetails(r.table.rows[id], t.rows[id])
      && (Truthy(partnerId) ==> r.table.rows[id].deliveryPartnerId == partnerId)
      && (!Truthy(partnerId) ==> r.table.rows[id].deliveryPartnerId == t.rows[id].deliveryPartnerId)
    ensures Valid(t) ==> Valid(r.table)
  {
    if id !in t.rows then Change(false, t)
    else
      var o := t.rows[id];
      var partner := if Truthy(partnerId) then partnerId else o.deliveryPartnerId;
      Change(true, t.(rows := t.rows[id := o.(status := status, deliveryPartnerId := partner)]))
  }

  /** Cancels order `id` only while it is pending; reports whether it did. */
  function Cancel(t: Table, id: OrderId): (r: Change)
    ensures r.changed <==> id in t.rows && t.rows[id].status == Pending
    ensures !r.changed ==> r.table == t
    ensures r.table.nextId == t.nextId && r.table.rows.Keys == t.rows.Keys
    ensures forall k :: k in t.rows && k != id ==> r.table.rows[k] == t.rows[k]
    ensures r.changed ==>
      && r.table.rows[id].status == Cancelled
      && SameOrderDetails(r.table.rows[id], t.rows[id])
      && r.table.rows[id].deliveryPartnerId == t.rows[id].deliveryPartnerId
    ensures Valid(t) ==> Valid(r.table)
  {
    if id in t.rows && t.rows[id].status == Pending then
      Change(true, t.(rows := t.rows[id := t.rows[id].(status := Cancelled)]))
    else
      Change(false, t)
  }

  /** A cancelled order cannot be cancelled again: the second call fails and changes nothing. */
  lemma CancelTwiceFails(t: Table, id: OrderId)
    ensures !Cancel(Cancel(t, id).table, id).changed
    ensures Cancel(Cancel(t, id).table, id).table == Cancel(t, id).table
  {
  }

  // ---------------------------------------------------------------------------
  // findAll

  /**
   The filters findAll accepts. `kind` is the `type` query parameter; every
   field may be absent.
   */
  datatype Filter = Filter(senderId: Option<UserId>, kind: Option<string>,
                           status: Option<string>, limit: Option<nat>)

  /** The status condition: `type` wins over an explicit `status`. */
  predicate StatusSelected(f: Filter, s: Status) {
    if f.kind == Some("active") then s in ActiveStatuses
    else if f.kind == Some("history") then s in HistoryStatuses
    else if Truthy(f.status) then StatusToken(s) == f.status.value
    else true
  }

  /** The WHERE clause of findAll: a truthy sender id scopes, and the status condition applies. */
  predicate Matches(f: Filter, o: Order) {
    (!Truthy(f.senderId) || o.senderId == f.senderId.value) && StatusSelected(f, o.status)
  }

  /** `type=active` and `type=history` select exactly their status sets, and nothing else. */
  lemma TypeSelectsExactly(f: Filter)
    ensures f.kind == Some("active") ==> forall s :: StatusSelected(f, s) <==> s in ActiveStatuses
    ensures f.kind == Some("history") ==> forall s :: StatusSelected(f, s) <==> s in HistoryStatuses
  {
  }

  /**
   An explicit status filter is ignored when the type is active or history,
   and a type other than those two is ignored altogether.
   */
  lemma StatusFilterPrecedence(f: Filter, s: Status, other: Option<string>)
    ensures f.kind == Some("active") || f.kind == Some("history") ==>
      StatusSelected(f, s) == StatusSelected(f.(status := other), s)
    ensures f.kind != Some("active") && f.kind != Some("history") ==>
      StatusSelected(f, s) == StatusSelected(f.(kind := None), s)
  {
  }

  /** Newest first: creation times never increase along the sequence. */
  predicate NewestFirst(s: seq<Order>) {
    forall i, j :: 0 <= i < j < |s| ==> s[i].createdAt >= s[j].createdAt
  }

  predicate DistinctIds(s: seq<Order>) {
    forall i, j :: 0 <= i < j < |s| ==> s[i].id != s[j].id
  }

  /** Every element of a newest-first sequence is no newer than its head. */
  lemma HeadIsNewest(s: seq<Order>, x: Order)
    requires NewestFirst(s) && x in s
    ensures x.createdAt <= s[0].createdAt
  {
    var j :| 0 <= j < |s| && s[j] == x;
    if j > 0 {
      assert s[0].createdAt >= s[j].createdAt;
    }
  }

  /**
   Inserts `o` into a newest-first sequence, before the first element that is
   not newer than it.
   */
  function InsertNewestFirst(s: seq<Order>, o: Order): (r: seq<Order>)
    requires NewestFirst(s)
    ensures NewestFirst(r)
    ensures multiset(r) == multiset(s) + multiset{o}
  {
    if s == [] || o.createdAt >= s[0].createdAt then
      assert forall x :: x in s ==> x.createdAt <= o.createdAt by {
        forall x | x in s ensures x.createdAt <= o.createdAt {
          HeadIsNewest(s, x);
        }
      }
      [o] + s
    else
      var rest := InsertNewestFirst(s[1..], o);
      assert s == [s[0]] + s[1..];
      assert forall x :: x in rest ==> x.createdAt <= s[0].createdAt by {
        forall x | x in rest ensures x.createdAt <= s[0].createdAt {
          assert x in multiset(rest);
          if x != o {
            assert x in s;
            HeadIsNewest(s, x);
          }
        }
      }
      [s[0]] + rest
  }

  /** Inserting an order whose id is new keeps the ids of the sequence distinct. */
  lemma {:induction false} InsertKeepsIdsDistinct(s: seq<Order>, o: Order)
    requires NewestFirst(s) && DistinctIds(s)
    requires forall x :: x in s ==> x.id != o.id
    ensures DistinctIds(InsertNewestFirst(s, o))
  {
    if s == [] || o.createdAt >= s[0].createdAt {
    } else {
      var rest := InsertNewestFirst(s[1..], o);
      assert s == [s[0]] + s[1..];
      InsertKeepsIdsDistinct(s[1..], o);
      forall x | x in rest ensures x.id != s[0].id {
        assert x in multiset(rest);
        if x != o {
          var j :| 0 <= j < |s[1..]| && s[1..][j] == x;
          assert s[j + 1] == x;
        }
      }
      var r := [s[0]] + rest;
      forall i, j | 0 <= i < j < |r| ensures r[i].id != r[j].id {
        if i > 0 {
          assert r[i] == rest[i - 1] && r[j] == rest[j - 1];
        } else {
          assert r[j] in rest;
        }
      }
    }
  }

  /**
   The LIMIT clause: the first `limit` rows, or all of them when there is no
   limit or fewer rows than it.
   */
  function ApplyLimit(s: seq<Order>, limit: Option<nat>): (r: seq<Order>)
    ensures |r| <= |s| && r == s[..|r|]
    ensures limit.None? ==> r == s
    ensures limit.Some? ==> |r| == if limit.value < |s| then limit.value else |s|
  {
    if limit.Some? && limit.value < |s| then s[..limit.value] else s
  }

  /**
   The rows findAll returns: the rows matching the filter, newest first, at
   most `limit` of them. A matching row is left out only when the limit is
   reached and the row is no newer than any row returned. SQL leaves the
   order of rows with equal creation times open, and so does this contract.
   */
  method FindAll(t: Table, f: Filter) returns (rows: seq<Order>)
    requires Valid(t)
    ensures forall i :: 0 <= i < |rows| ==>
      rows[i].id in t.rows && t.rows[rows[i].id] == rows[i] && Matches(f, rows[i])
    ensures Truthy(f.senderId) ==> forall i :: 0 <= i < |rows| ==> rows[i].senderId == f.senderId.value
    ensures DistinctIds(rows)
    ensures NewestFirst(rows)
    ensures f.limit.Some? ==> |rows| <= f.limit.value
    ensures forall k :: k in t.rows && Matches(f, t.rows[k]) && t.rows[k] !in rows ==>
      && f.limit.Some? && |rows| == f.limit.value
      && forall i :: 0 <= i < |rows| ==> t.rows[k].createdAt <= rows[i].createdAt
  {
    var sorted: seq<Order> := [];
    ghost var done: set<OrderId> := {};
    var todo := t.rows.Keys;
    while todo != {}
      invariant todo !! done && todo + done == t.rows.Keys
      invariant forall x :: x in sorted ==> x.id in done && t.rows[x.id] == x && Matches(f, x)
      invariant DistinctIds(sorted) && NewestFirst(sorted)
      invariant forall k :: k in done && Matches(f, t.rows[k]) ==> t.rows[k] in sorted
      decreases todo
    {
      var k :| k in todo;
      if Matches(f, t.rows[k]) {
        var before := sorted;
        InsertKeepsIdsDistinct(sorted, t.rows[k]);
        sorted := InsertNewestFirst(sorted, t.rows[k]);
        forall x ensures x in sorted <==> x in before || x == t.rows[k] {
          assert x in sorted <==> x in multiset(sorted);
          assert x in before <==> x in multiset(before);
        }
      }
      done := done + {k};
      todo := todo - {k};
    }
    rows := ApplyLimit(sorted, f.limit);
    forall k | k in t.rows && Matches(f, t.rows[k]) && t.rows[k] !in rows
      ensures f.limit.Some? && |rows| == f.limit.value
      ensures forall i :: 0 <= i < |rows| ==> t.rows[k].createdAt <= rows[i].createdAt
    {
      var j :| 0 <= j < |sorted| && sorted[j] == t.rows[k];
      assert j >= |rows|;
    }
  }
}

=== FILE: outcomes.dfy ===
/**
 The result of a route handler: a success body or one of the error kinds the
 handlers answer with. Only the kind (and so the HTTP status code) and the
 message survive from the Express response.
 */
module Outcomes {

  datatype Outcome<+T> =
    | Ok(value: T)               // 200
    | Created(value: T)          // 201
    | BadRequest(message: string)    // 400
    | Unauthorized(message: string)  // 401
    | Forbidden(message: string)     // 403
    | NotFound(message: string)      // 404
    | Conflict(message: string)      // 409
    | UpdateFailed(message: string)  // 400, the store reported no change
  {
    predicate IsSuccess() {
      Ok? || Created?
    }

    /** The same error, as the outcome of a route with another success body. */
    function Propagate<U>(): (r: Outcome<U>)
      requires !IsSuccess()
      ensures !r.IsSuccess() && r.message == message && r.StatusCode() == StatusCode()
    {
      match this
      case BadRequest(m) => BadRequest(m)
      case Unauthorized(m) => Unauthorized(m)
      case Forbidden(m) => Forbidden(m)
      case NotFound(m) => NotFound(m)
      case Conflict(m) => Conflict(m)
      case UpdateFailed(m) => UpdateFailed(m)
    }

    /** The HTTP status code the handler sends with this outcome. */
    function StatusCode(): nat {
      match this
      case Ok(_) => 200
      case Created(_) => 201
      case BadRequest(_) => 400
      case Unauthorized(_) => 401
      case Forbidden(_) => 403
      case NotFound(_) => 404
      case Conflict(_) => 409
      case UpdateFailed(_) => 400
    }
  }
}

=== FILE: wrappers.dfy ===
/** Optional values, the model's stand-in for JavaScript's `undefined`/`null`. */
module Wrappers {

  datatype Option<+T> = None | Some(value: T)
}
